=== FILE: README.md ===
# Snake game state, modelled in Dafny

A model of the game-state logic of a single-screen snake game written in
Ruby (`snake_game.rb`). The snake moves one cell per frame on a 32 x 24
torus. It grows when its head reaches the target ("ball") and the game ends
when the body runs into itself. Before play, a row of five colour boxes lets
the player pick the snake's colour.

Everything is immutable values and pure functions:

- `Grid` holds the window and cell constants (640 x 480 pixels, cells of 20,
  so `GRID_WIDTH = 32` and `GRID_HEIGHT = 24`). It also holds directions,
  the wrap `NewCoords` and the step `NextPosition`, and a reference
  definition of a torus step with explicit edge cases (`TorusStep`).
- `Dedup` models Ruby's `Array#uniq`, which keeps first occurrences. It
  also defines `Distinct`, "no cell occurs twice".
- `Decimal` renders a natural number in decimal, as string interpolation
  does.
- `ColorChooser` models `ColorSelection` and `ColorBox`. This covers the
  layout, the inclusive containment test, click handling, and the
  `@y = 50` side effect of drawing a box.
- `SnakeBody` models `Snake`: `move`, `grow`, the direction guard, the
  setter and `hit_itself?`.
- `GameState` models `Game`: hit test, `record_hit`, `finish` and the
  status text.
- `Session` models the top-level script. It is a value holding the snake,
  the game, the colour selection and the `color_selected` flag. The
  `update` block becomes `Tick`, `on :key_down` becomes `KeyDown` and
  `on :mouse_down` becomes `MouseDown`. `Run` applies a sequence of these
  events.

`Move` reads the head only after the tail has been dropped, exactly as the
Ruby does. That needs a non-empty body after the drop; this is the `CanMove`
precondition, without which the Ruby fails on `nil`. `Session.Inv` says the
body has at least 4 cells, all in the grid, each next to the one before. It
also says the target is in the grid and the colour boxes keep their layout
with at most one highlighted. The initial session satisfies `Inv`, and every
event preserves it (`Apply`, `Run`). So every reachable frame can move, and
the head after a move is one torus step from the old head.

Behaviour of the code worth knowing:

- Any mouse click while no colour is committed commits, including a miss.
  The snake's colour becomes the selection, which may be none.
- The direction guard compares against the stored direction, not the
  direction last moved in. Two keys between frames can therefore reverse
  the snake (`DoubleKeyReversal`).
- `ColorBox#draw` moves every box to y = 50. Containment after the first
  frame uses that y.
- A finished game still runs the hit test on every frame. If the target was
  re-placed under the frozen head, the score rises again and the snake is
  marked as growing. `Tick` states this; no claim is made that the score
  freezes.
- A restart gives a new snake (olive), a new game and `colorSelected =
  false`. The colour selection keeps its selection and highlights.

## Model

| member | source | states |
|---|---|---|
| Grid.GridDimensions | snake_game.rb:5-15 | the grid is the window size divided by the 20-pixel cell: 32 columns, 24 rows |
| Grid.OppositeIsInvolution | snake_game.rb:48-55 | the reverse pairs up/down and left/right: no direction is its own reverse, and reversing twice gives it back |
| Grid.NewCoords | snake_game.rb:83-85 | the wrapped cell is inside the grid, differs from (x, y) by a whole number of grid widths/heights, and is (x, y) itself when that is already inside |
| Grid.NextPosition | snake_game.rb:65-75 | the next cell is inside the grid and, from an in-grid head, is exactly the torus neighbour in the direction (reference `TorusStep` with explicit edge cases) |
| Grid.StepBack | snake_game.rb:65-85 | a step followed by a step in the opposite direction returns to the starting cell |
| Grid.UpFromTopRow | snake_game.rb:65-85 | moving up from row 0 lands on row 23 of the same column |
| Grid.LeftFromFirstColumn | snake_game.rb:65-85 | moving left from column 0 lands on column 31 of the same row |
| Dedup.Uniq | snake_game.rb:78 | the de-duplicated body is no longer than the body, has the same cells, and has no cell twice |
| Dedup.UniqLengthIffDistinct | snake_game.rb:77-79 | de-duplication keeps the length exactly when no cell occurs twice (both directions) |
| Decimal.NatToString | snake_game.rb:128-130 | the rendered score is a non-empty digit string without leading zero whose decimal value is the score |
| SnakeBody.NewSnake | snake_game.rb:22-27 | a new snake has exactly 4 distinct, in-grid, adjacent cells from (2,10) to its head (2,13), heads down, is not growing and is olive |
| SnakeBody.Head | snake_game.rb:87-89 | the head is a cell of the body; `HeadEndsBody` shows it is the last one, after all the others |
| SnakeBody.HeadEndsBody | snake_game.rb:57-63 | the body is the cells behind the head followed by the head, which `x` and `y` read |
| SnakeBody.Grow | snake_game.rb:35-37 | grow requests growth and leaves the body, direction and colour alone |
| SnakeBody.GrowIdempotent | snake_game.rb:35-37 | growing twice before a move is the same as growing once |
| SnakeBody.Move | snake_game.rb:39-46 | a move clears growth, keeps direction and colour, grows the body by one exactly when growth was pending, keeps every cell (or all but the tail), and puts the new head one step from the old head |
| SnakeBody.NormalMove | snake_game.rb:39-46 | without pending growth the length is unchanged and the body is the old body minus its first cell plus the new head |
| SnakeBody.GrowThenMove | snake_game.rb:35-46 | after grow, the next move keeps every old cell, appends one head (length + 1) and clears the flag |
| SnakeBody.MoveKeepsValid | snake_game.rb:22-46 | on a snake of at least 4 in-grid adjacent cells a move is safe, keeps all that, and never shortens the body |
| SnakeBody.CanChangeDirectionTo | snake_game.rb:48-55 | the guard is false exactly for the reverse of the current direction |
| SnakeBody.SetDirection | snake_game.rb:19 | the unguarded direction writer changes the direction and leaves body, growth flag and colour alone |
| SnakeBody.GuardFromUp | snake_game.rb:48-55 | heading up, down is refused while left, right and up are allowed |
| SnakeBody.HitItself | snake_game.rb:77-79 | self-collision holds exactly when some cell occurs twice in the body |
| SnakeBody.InitialMove | snake_game.rb:22-46 | from the initial body heading down, one move gives (2,11),(2,12),(2,13),(2,14) |
| SnakeBody.InitialGrowMove | snake_game.rb:22-46 | from the initial body, grow then move gives the five cells (2,10) to (2,14) |
| SnakeBody.InitialNoCollision | snake_game.rb:77-79 | the initial body reports no self-collision |
| SnakeBody.RepeatedCellCollides | snake_game.rb:77-79 | the body (5,5),(5,6),(5,5) reports a self-collision |
| GameState.NewGame | snake_game.rb:94-99 | a new game has score 0, is not finished, and its target starts at cell (10, 10), inside the grid |
| GameState.SnakeHitBall | snake_game.rb:106-108 | the hit test is true exactly when (x, y) is the target cell |
| GameState.RecordHit | snake_game.rb:110-114 | a hit raises the score by exactly 1, moves the target to the drawn in-grid cell, and leaves the finished flag alone |
| GameState.Finish | snake_game.rb:116-118 | finish sets the finished flag and leaves target and score alone |
| GameState.TextMessage | snake_game.rb:126-132 | the status line starts with the playing or game-over prefix, ends with the restart prompt once finished, and between them spells the score in decimal without leading zeros |
| ColorChooser.ContainsCorners | snake_game.rb:200-202 | containment is inclusive at both corners and excludes the pixel just outside each edge |
| ColorChooser.ContainsPoint | snake_game.rb:200-202 | a point is in a box when it lies between the left and right edges and between the top and bottom edges, edges included |
| ColorChooser.LayOut | snake_game.rb:168-176 | one box per colour, in order, at a fixed y, each 80 pixels to the right of the previous, size 60, not highlighted |
| ColorChooser.NewColorSelection | snake_game.rb:137-176 | a new selection has nothing selected and five unhighlighted boxes centred in the window, at x = 120, 200, 280, 360, 440 and y = 210, in palette order |
| ColorChooser.DrawBoxes | snake_game.rb:192-193 | drawing the boxes moves every box to y = 50, changes nothing else about it, and keeps the box count and the selection |
| ColorChooser.DrawKeepsLayout | snake_game.rb:192-193 | drawing moves every box to y = 50 and keeps the row layout and the highlights |
| ColorChooser.ClickEach | snake_game.rb:151-160 | the pass highlights exactly the boxes containing the point; the selection becomes the colour of the last box hit, or stays as it was on a miss |
| ColorChooser.HandleClick | snake_game.rb:151-160 | a click highlights exactly the boxes containing the point and selects the colour of the last one, or keeps the selection on a miss |
| ColorChooser.LaidOutDisjoint | snake_game.rb:168-202 | no point lies in two laid-out boxes |
| ColorChooser.ClickOnLaidOut | snake_game.rb:151-202 | on the laid-out row at most one box ends up highlighted; a hit selects that box's colour; a miss un-highlights all and keeps the selection |
| Session.InitialSession | snake_game.rb:205-208 | the starting session satisfies the invariant, has no colour committed, score 0, an unfinished game and no self-collision |
| Session.InvCanTick | snake_game.rb:215-222 | in every session satisfying the invariant the frame update can run |
| Session.Tick | snake_game.rb:210-235 | a finished game does not move; otherwise the body becomes the moved body (`Move`), with the head one step on; the score rises by 1 exactly when the head is on the target, which then moves to the drawn cell and growth is requested; the game is finished exactly when it was or the body now repeats a cell; until a colour is committed the picker becomes the drawn picker (`DrawBoxes`: every box at y = 50, nothing else changed) |
| Session.TickKeepsInv | snake_game.rb:210-235 | a frame keeps the invariant |
| Session.KeyDown | snake_game.rb:246-260 | space on a finished game gives a new snake and game and uncommits the colour; any other key leaves game, colours and body alone and changes direction only to a non-reverse arrow |
| Session.MouseDown | snake_game.rb:237-244 | before a colour is committed any click goes to the picker, copies its selection (possibly none) to the snake and commits; afterwards nothing changes |
| Session.MouseCommits | snake_game.rb:237-244 | a click on a box colours the snake with that box's colour; a miss still commits and leaves the previous selection on the snake |
| Session.Apply | snake_game.rb:210-260 | every event keeps the invariant |
| Session.Run | snake_game.rb:210-260 | any sequence of events keeps the invariant |
| Session.RunWithinGame | snake_game.rb:210-260 | along any run with no restart (space on a finished game), including space pressed during play, the score never falls, a finished game stays finished and the body never shortens |
| Session.ApplyWithinGame | snake_game.rb:210-260 | one event that is not a restart never lowers the score, never un-finishes the game and never shortens the body |
| Session.SpaceDuringPlayStaysInGame | snake_game.rb:253-259 | space on an unfinished game changes nothing and does not end the run within the game |
| Session.DoubleKeyReversal | snake_game.rb:246-251 | from the start, left then up reverses the snake and the next frame ends the game |

## Left out

- Drawing is not modelled: `Snake#draw`, `Game#draw`, `ColorSelection#draw`, the squares and texts of `ColorBox#draw`, `clear` and `show`. These are calls into the graphics library with no state the game reads back. The one exception is `ColorBox#draw`'s `@y = 50`, which is kept as `DrawBoxes`.
- Window setup, background and frame-rate cap are not modelled. Only the derived grid size is kept.
- `rand` in `record_hit` is replaced by a caller-supplied cell. It must lie inside the grid, which is the range `rand(32)`, `rand(24)` returns. Randomness itself is not modelled.
- Registration of the `update`, `on :key_down` and `on :mouse_down` blocks is not modelled. Only the transition each block performs is kept.
- Key names other than the four arrows and space become one `OtherKey`, since the handler ignores them all.
- `Snake#x`, `Snake#y` and `head` are the one function `Head`.
- `finished?`, `selected_color` and the `attr_reader`s are reads of datatype fields.
- Ruby's public/private split is not modelled.
- Ruby's failure on an empty body is not modelled. It shows up as the `CanMove` and `CanTick` preconditions, which every reachable session meets.

=== FILE: color_selection.dfy ===
/** The pre-game colour picker: a row of five clickable boxes, one per
    palette colour, and the colour the last hit box selected. */
module ColorChooser {
  import opened Options
  import opened Grid

  datatype Color = Maroon | Teal | Olive | Silver | Orange

  const COLORS: seq<Color> := [Maroon, Teal, Olive, Silver, Orange]
  const BOX_SIZE: int := 60
  const BOX_PADDING: int := 20
  /** Distance from one box's left edge to the next box's left edge. */
  const BOX_STEP: int := BOX_SIZE + BOX_PADDING
  /** Left edge of the first box: the row of boxes centred in the window. */
  const ROW_X: int := (WINDOW_WIDTH - |COLORS| * BOX_STEP) / 2
  /** Top edge of every box before it is first drawn. */
  const ROW_Y: int := (WINDOW_HEIGHT - BOX_SIZE) / 2
  /** The vertical position a box takes on as a side effect of being drawn. */
  const DRAWN_Y: int := 50

  /** A box of side `size` whose top-left corner is (x, y), in pixels. */
  datatype ColorBox = ColorBox(x: int, y: int, size: int, color: Color, highlighted: bool)

  datatype ColorSelection = ColorSelection(selected: Option<Color>, boxes: seq<ColorBox>)

  /** Inclusive bounding-box test: both edges belong to the box. */
  predicate ContainsPoint(b: ColorBox, px: int, py: int) {
    px >= b.x && px <= b.x + b.size && py >= b.y && py <= b.y + b.size
  }

  lemma ContainsCorners(b: ColorBox)
    requires b.size >= 0
    ensures ContainsPoint(b, b.x, b.y)
    ensures ContainsPoint(b, b.x + b.size, b.y + b.size)
    ensures !ContainsPoint(b, b.x - 1, b.y) && !ContainsPoint(b, b.x + b.size + 1, b.y)
    ensures !ContainsPoint(b, b.x, b.y - 1) && !ContainsPoint(b, b.x, b.y + b.size + 1)
  {
  }

  /** Horizontal position of the i-th laid-out box. */
  function BoxLeft(i: int): int {
    ROW_X + i * BOX_STEP
  }

  /** The row layout every colour selection keeps: one box per palette
      colour, in palette order, BOX_STEP pixels apart starting at ROW_X. */
  predicate LaidOut(boxes: seq<ColorBox>) {
    && |boxes| == |COLORS|
    && forall i :: 0 <= i < |boxes| ==>
         boxes[i].x == BoxLeft(i) && boxes[i].size == BOX_SIZE && boxes[i].color == COLORS[i]
  }

  predicate AtMostOneHighlighted(boxes: seq<ColorBox>) {
    forall i, j :: 0 <= i < j < |boxes| ==> !(boxes[i].highlighted && boxes[j].highlighted)
  }

  /** Boxes for `colors`, left to right from (x, y), each BOX_PADDING
      pixels after the previous one ends. */
  function LayOut(colors: seq<Color>, x: int, y: int): (r: seq<ColorBox>)
    ensures |r| == |colors|
    ensures forall i :: 0 <= i < |r| ==>
              r[i] == ColorBox(x + i * BOX_STEP, y, BOX_SIZE, colors[i], false)
    decreases |colors|
  {
    if |colors| == 0 then []
    else [ColorBox(x, y, BOX_SIZE, colors[0], false)] + LayOut(colors[1..], x + BOX_STEP, y)
  }

  /** A new selection: nothing selected, the row of boxes centred on the
      screen at y = 210, nothing highlighted. */
  function NewColorSelection(): (cs: ColorSelection)
    ensures cs.selected == None
    ensures LaidOut(cs.boxes)
    ensures forall i :: 0 <= i < |cs.boxes| ==> cs.boxes[i].y == 210 && !cs.boxes[i].highlighted
    ensures forall i :: 0 <= i < |cs.boxes| ==> cs.boxes[i].x == 120 + 80 * i
  {
    ColorSelection(None, LayOut(COLORS, ROW_X, ROW_Y))
  }

  /** Drawing the boxes moves every one of them to y = DRAWN_Y. */
  function DrawBoxes(cs: ColorSelection): (r: ColorSelection)
    ensures r.selected == cs.selected
    ensures |r.boxes| == |cs.boxes|
    ensures forall i :: 0 <= i < |r.boxes| ==> r.boxes[i] == cs.boxes[i].(y := DRAWN_Y)
  {
    cs.(boxes := seq(|cs.boxes|, i requires 0 <= i < |cs.boxes| => cs.boxes[i].(y := DRAWN_Y)))
  }

  lemma DrawKeepsLayout(cs: ColorSelection)
    requires LaidOut(cs.boxes) && AtMostOneHighlighted(cs.boxes)
    ensures LaidOut(DrawBoxes(cs).boxes) && AtMostOneHighlighted(DrawBoxes(cs).boxes)
    ensures forall i :: 0 <= i < |cs.boxes| ==>
              DrawBoxes(cs).boxes[i].highlighted == cs.boxes[i].highlighted && DrawBoxes(cs).boxes[i].y == DRAWN_Y
  {
  }

  /** Box i contains the point and no later box does. */
  predicate LastHit(boxes: seq<ColorBox>, px: int, py: int, i: int) {
    && 0 <= i < |boxes|
    && ContainsPoint(boxes[i], px, py)
    && forall j :: i < j < |boxes| ==> !ContainsPoint(boxes[j], px, py)
  }

  predicate NoHit(boxes: seq<ColorBox>, px: int, py: int) {
    forall i :: 0 <= i < |boxes| ==> !ContainsPoint(boxes[i], px, py)
  }

  /** One pass over the boxes in order: every box is highlighted exactly
      when it contains the point, and each box that does overwrites the
      selection with its colour. */
  function ClickEach(boxes: seq<ColorBox>, px: int, py: int, sel: Option<Color>): (r: (seq<ColorBox>, Option<Color>))
    ensures |r.0| == |boxes|
    ensures forall i :: 0 <= i < |boxes| ==>
              r.0[i] == boxes[i].(highlighted := ContainsPoint(boxes[i], px, py))
    ensures NoHit(boxes, px, py) ==> r.1 == sel
    ensures forall i :: LastHit(boxes, px, py, i) ==> r.1 == Some(boxes[i].color)
    decreases |boxes|
  {
    if |boxes| == 0 then ([], sel)
    else
      var b := boxes[0];
      var hit := ContainsPoint(b, px, py);
      var rest := ClickEach(boxes[1..], px, py, if hit then Some(b.color) else sel);
      assert forall i :: LastHit(boxes, px, py, i) && i > 0 ==> LastHit(boxes[1..], px, py, i - 1);
      assert forall i :: LastHit(boxes, px, py, i) && i == 0 ==> NoHit(boxes[1..], px, py);
      ([b.(highlighted := hit)] + rest.0, rest.1)
  }

  function HandleClick(cs: ColorSelection, px: int, py: int): (r: ColorSelection)
    ensures |r.boxes| == |cs.boxes|
    ensures forall i :: 0 <= i < |cs.boxes| ==>
              r.boxes[i] == cs.boxes[i].(highlighted := ContainsPoint(cs.boxes[i], px, py))
    ensures NoHit(cs.boxes, px, py) ==> r.selected == cs.selected
    ensures forall i :: LastHit(cs.boxes, px, py, i) ==> r.selected == Some(cs.boxes[i].color)
  {
    var (boxes, sel) := ClickEach(cs.boxes, px, py, cs.selected);
    ColorSelection(sel, boxes)
  }

  /** Laid-out boxes are pairwise disjoint: no point lies in two of them. */
  lemma LaidOutDisjoint(boxes: seq<ColorBox>, px: int, py: int, i: int, j: int)
    requires LaidOut(boxes)
    requires 0 <= i < |boxes| && 0 <= j < |boxes| && i != j
    ensures !(ContainsPoint(boxes[i], px, py) && ContainsPoint(boxes[j], px, py))
  {
  }

  /** A click on a laid-out row highlights at most one box; on a hit the
      hit box's colour is selected and only that box is highlighted; on a
      miss nothing is highlighted and the selection stays as it was. */
  lemma ClickOnLaidOut(cs: ColorSelection, px: int, py: int)
    requires LaidOut(cs.boxes)
    ensures LaidOut(HandleClick(cs, px, py).boxes)
    ensures AtMostOneHighlighted(HandleClick(cs, px, py).boxes)
    ensures forall i :: 0 <= i < |cs.boxes| && ContainsPoint(cs.boxes[i], px, py) ==>
              && HandleClick(cs, px, py).selected == Some(COLORS[i])
              && HandleClick(cs, px, py).boxes[i].highlighted
    ensures NoHit(cs.boxes, px, py) ==>
              && HandleClick(cs, px, py).selected == cs.selected
              && forall i :: 0 <= i < |cs.boxes| ==> !HandleClick(cs, px, py).boxes[i].highlighted
  {
    var r := HandleClick(cs, px, py);
    forall i, j | 0 <= i < j < |r.boxes|
      ensures !(r.boxes[i].highlighted && r.boxes[j].highlighted)
    {
      LaidOutDisjoint(cs.boxes, px, py, i, j);
    }
    forall i | 0 <= i < |cs.boxes| && ContainsPoint(cs.boxes[i], px, py)
      ensures r.selected == Some(COLORS[i])
    {
      forall j | i < j < |cs.boxes|
        ensures !ContainsPoint(cs.boxes[j], px, py)
      {
        LaidOutDisjoint(cs.boxes, px, py, i, j);
      }
      assert LastHit(cs.boxes, px, py, i);
    }
  }
}

=== FILE: decimal.dfy ===
/** Decimal rendering of a non-negative integer, as Ruby's string
    interpolation `"#{n}"` writes it: most significant digit first, no
    leading zero. */
module Decimal {

  predicate IsDigit(c: char) {
    '0' <= c <= '9'
  }

  predicate AllDigits(s: string) {
    forall i :: 0 <= i < |s| ==> IsDigit(s[i])
  }

  function DigitChar(n: nat): (c: char)
    requires n < 10
    ensures IsDigit(c)
    ensures DigitValue(c) == n
  {
    (48 + n) as char
  }

  function DigitValue(c: char): nat
    requires IsDigit(c)
  {
    c as int - '0' as int
  }

  /** The number a string of decimal digits denotes. */
  function DigitsValue(s: string): nat
    requires AllDigits(s)
  {
    if |s| == 0 then 0 else DigitsValue(s[..|s| - 1]) * 10 + DigitValue(s[|s| - 1])
  }

  function NatToString(n: nat): (r: string)
    ensures 1 <= |r|
    ensures AllDigits(r)
    ensures DigitsValue(r) == n
    ensures |r| > 1 ==> r[0] != '0'
  {
    if n < 10 then [DigitChar(n)]
    else
      var prefix := NatToString(n / 10);
      var r := prefix + [DigitChar(n % 10)];
      assert r[..|r| - 1] == prefix;
      r
  }
}

=== FILE: dedup.dfy ===
/** Duplicate removal over sequences, as Ruby's `Array#uniq` does it.  The
    definition keeps the first occurrence of every element, in order; the
    contract states only what self-collision reads: the same elements, none
    twice, and no more of them than before. */
module Dedup {

  /** No element occurs twice. */
  predicate Distinct<T(==)>(s: seq<T>) {
    forall i, j :: 0 <= i < j < |s| ==> s[i] != s[j]
  }

  function Uniq<T(==)>(s: seq<T>): (r: seq<T>)
    ensures |r| <= |s|
    ensures forall i :: 0 <= i < |r| ==> r[i] in s
    ensures forall i :: 0 <= i < |s| ==> s[i] in r
    ensures Distinct(r)
  {
    if |s| == 0 then []
    else
      var u := Uniq(s[..|s| - 1]);
      if s[|s| - 1] in u then u else u + [s[|s| - 1]]
  }

  /** Removing duplicates keeps the length exactly when there were none. */
  lemma {:induction false} UniqLengthIffDistinct<T>(s: seq<T>)
    ensures |Uniq(s)| == |s| <==> Distinct(s)
  {
    if |s| > 0 {
      var p := s[..|s| - 1];
      var last := s[|s| - 1];
      UniqLengthIffDistinct(p);
      if Distinct(s) {
        assert Distinct(p) by {
          forall i, j | 0 <= i < j < |p|
            ensures p[i] != p[j]
          {
            assert p[i] == s[i] && p[j] == s[j];
          }
        }
        assert last !in p by {
          forall i | 0 <= i < |p|
            ensures p[i] != last
          {
            assert p[i] == s[i];
          }
        }
      } else if Distinct(p) {
        var i, j :| 0 <= i < j < |s| && s[i] == s[j];
        assert j == |s| - 1;
        assert p[i] == last;
      }
    }
  }
}

=== FILE: game.dfy ===
/** The game: where the target ("ball") sits, the score, and whether the
    game is over. */
module GameState {
  import opened Grid
  import opened Decimal

  datatype Game = Game(ball: Pos, score: nat, finished: bool)

  const INITIAL_BALL: Pos := Pos(10, 10)
  const SCORE_PREFIX: string := "Score: "
  const GAME_OVER_PREFIX: string := "Game over! Your Score: "
  const GAME_OVER_SUFFIX: string := ". Press 'Space' to restart. "

  function NewGame(): (g: Game)
    ensures g.score == 0 && !g.finished && InGrid(g.ball)
    ensures g.ball == Pos(10, 10)
  {
    Game(INITIAL_BALL, 0, false)
  }

  /** Whether the cell (x, y) is where the target sits. */
  function SnakeHitBall(g: Game, x: int, y: int): (r: bool)
    ensures r <==> Pos(x, y) == g.ball
  {
    g.ball.col == x && g.ball.row == y
  }

  /** Scores a hit and moves the target to `next`, the cell the random
      source drew (one uniform draw below the grid width, one below the
      grid height). */
  function RecordHit(g: Game, next: Pos): (r: Game)
    requires InGrid(next)
    ensures r.score == g.score + 1
    ensures r.ball == next && InGrid(r.ball)
    ensures r.finished == g.finished
  {
    g.(score := g.score + 1, ball := next)
  }

  /** Marks the game as over; nothing else changes. */
  function Finish(g: Game): (r: Game)
    ensures r.finished
    ensures r.ball == g.ball && r.score == g.score
  {
    g.(finished := true)
  }

  /** The status line: the score while playing, a game-over prompt with
      the score once finished.  In both the score is spelled in decimal,
      without leading zeros, right after the prefix. */
  function TextMessage(g: Game): (r: string)
    ensures !g.finished ==>
              && |r| > |SCORE_PREFIX|
              && r[..|SCORE_PREFIX|] == SCORE_PREFIX
              && AllDigits(r[|SCORE_PREFIX|..])
              && DigitsValue(r[|SCORE_PREFIX|..]) == g.score
              && (|r| > |SCORE_PREFIX| + 1 ==> r[|SCORE_PREFIX|] != '0')
    ensures g.finished ==>
              && |r| > |GAME_OVER_PREFIX| + |GAME_OVER_SUFFIX|
              && r[..|GAME_OVER_PREFIX|] == GAME_OVER_PREFIX
              && r[|r| - |GAME_OVER_SUFFIX|..] == GAME_OVER_SUFFIX
              && AllDigits(r[|GAME_OVER_PREFIX|..|r| - |GAME_OVER_SUFFIX|])
              && DigitsValue(r[|GAME_OVER_PREFIX|..|r| - |GAME_OVER_SUFFIX|]) == g.score
              && (|r| > |GAME_OVER_PREFIX| + |GAME_OVER_SUFFIX| + 1 ==> r[|GAME_OVER_PREFIX|] != '0')
  {
    var digits := NatToString(g.score);
    if g.finished then
      var r := GAME_OVER_PREFIX + digits + GAME_OVER_SUFFIX;
      assert r[|GAME_OVER_PREFIX|..|r| - |GAME_OVER_SUFFIX|] == digits;
      r
    else
      var r := SCORE_PREFIX + digits;
      assert r[|SCORE_PREFIX|..] == digits;
      r
  }
}

=== FILE: grid.dfy ===
/** Geometry of the playing field.  The 640 x 480 window is cut into square
    cells of 20 pixels, which gives a 32 x 24 grid wrapped into a torus: a
    step off one edge re-enters at the opposite edge. */
module Grid {

  const WINDOW_WIDTH: int := 640
  const WINDOW_HEIGHT: int := 480
  const SQUARE_SIZE: int := 20
  /** Cells per row and per column: the window size divided by the cell
      size (see `GridDimensions`). */
  const GRID_WIDTH: int := 32
  const GRID_HEIGHT: int := 24

  /** A cell of the grid, addressed by (column, row). */
  datatype Pos = Pos(col: int, row: int)

  datatype Direction = Up | Down | Left | Right

  predicate InGrid(p: Pos) {
    0 <= p.col < GRID_WIDTH && 0 <= p.row < GRID_HEIGHT
  }

  lemma GridDimensions()
    ensures GRID_WIDTH == WINDOW_WIDTH / SQUARE_SIZE
    ensures GRID_HEIGHT == WINDOW_HEIGHT / SQUARE_SIZE
  {
  }

  function Opposite(d: Direction): Direction {
    match d
    case Up => Down
    case Down => Up
    case Left => Right
    case Right => Left
  }

  lemma OppositeIsInvolution(d: Direction)
    ensures Opposite(d) != d
    ensures Opposite(Opposite(d)) == d
  {
  }

  /** Wraps a coordinate pair into the grid (Ruby `%` by a positive divisor,
      like Dafny's, is never negative).  The result is the unique in-grid
      cell congruent to (x, y) modulo the grid size. */
  function NewCoords(x: int, y: int): (r: Pos)
    ensures InGrid(r)
    ensures x == r.col + GRID_WIDTH * (x / GRID_WIDTH)
    ensures y == r.row + GRID_HEIGHT * (y / GRID_HEIGHT)
    ensures InGrid(Pos(x, y)) ==> r == Pos(x, y)
  {
    Pos(x % GRID_WIDTH, y % GRID_HEIGHT)
  }

  /** Reference definition of one step on the torus, written with explicit
      edge cases and no modulo. */
  predicate TorusStep(p: Pos, q: Pos, d: Direction) {
    match d
    case Down => q.col == p.col && q.row == (if p.row == GRID_HEIGHT - 1 then 0 else p.row + 1)
    case Up => q.col == p.col && q.row == (if p.row == 0 then GRID_HEIGHT - 1 else p.row - 1)
    case Left => q.row == p.row && q.col == (if p.col == 0 then GRID_WIDTH - 1 else p.col - 1)
    case Right => q.row == p.row && q.col == (if p.col == GRID_WIDTH - 1 then 0 else p.col + 1)
  }

  /** Two cells are neighbours when one step in some direction leads from
      the first to the second. */
  predicate Adjacent(p: Pos, q: Pos) {
    TorusStep(p, q, Up) || TorusStep(p, q, Down) || TorusStep(p, q, Left) || TorusStep(p, q, Right)
  }

  /** The cell one step from `head` in direction `d`. */
  function NextPosition(head: Pos, d: Direction): (r: Pos)
    ensures InGrid(r)
    ensures InGrid(head) ==> TorusStep(head, r, d)
  {
    match d
    case Down => NewCoords(head.col, head.row + 1)
    case Up => NewCoords(head.col, head.row - 1)
    case Left => NewCoords(head.col - 1, head.row)
    case Right => NewCoords(head.col + 1, head.row)
  }

  /** A step followed by a step in the opposite direction returns to the
      starting cell. */
  lemma StepBack(p: Pos, d: Direction)
    requires InGrid(p)
    ensures NextPosition(NextPosition(p, d), Opposite(d)) == p
  {
    var q := NextPosition(p, d);
    assert TorusStep(q, NextPosition(q, Opposite(d)), Opposite(d));
  }

  lemma UpFromTopRow(c: int)
    requires 0 <= c < GRID_WIDTH
    ensures NextPosition(Pos(c, 0), Up) == Pos(c, GRID_HEIGHT - 1)
  {
  }

  lemma LeftFromFirstColumn(r: int)
    requires 0 <= r < GRID_HEIGHT
    ensures NextPosition(Pos(0, r), Left) == Pos(GRID_WIDTH - 1, r)
  {
  }
}

=== FILE: options.dfy ===
/** The optional value used where the game holds Ruby's `nil`: a snake colour
    copied from a colour selection that was never hit. */
module Options {

  datatype Option<+T> = None | Some(value: T)
}

=== FILE: session.dfy ===
/** The running game as one value: the snake, the game, the colour picker
    and whether a colour has been committed.  The per-frame update and the
    key and mouse handlers are transitions over it. */
module Session {
  import opened Options
  import opened Grid
  import opened Dedup
  import opened ColorChooser
  import opened SnakeBody
  import opened GameState

  datatype Key = Arrow(d: Direction) | Space | OtherKey

  datatype Session = Session(snake: Snake, game: Game, colors: ColorSelection, colorSelected: bool)

  datatype Event = TickEvent(target: Pos) | KeyEvent(key: Key) | MouseEvent(x: int, y: int)

  /** What holds of every session play can reach. */
  predicate Inv(s: Session) {
    && Valid(s.snake)
    && InGrid(s.game.ball)
    && LaidOut(s.colors.boxes)
    && AtMostOneHighlighted(s.colors.boxes)
  }

  function InitialSession(): (s: Session)
    ensures Inv(s)
    ensures !s.colorSelected && s.game.score == 0 && !s.game.finished
    ensures !HitItself(s.snake)
  {
    Session(NewSnake(), NewGame(), NewColorSelection(), false)
  }

  /** The frame update can run: a finished game still reads the head, a
      running one moves the snake first. */
  predicate CanTick(s: Session) {
    if s.game.finished then |s.snake.body| > 0 else CanMove(s.snake)
  }

  lemma InvCanTick(s: Session)
    requires Inv(s)
    ensures CanTick(s)
  {
  }

  /** One frame: move unless finished; on reaching the target score it,
      re-place it at `target` and grow; on self-collision finish; while no
      colour is committed, draw the colour boxes (which moves them). */
  function Tick(s: Session, target: Pos): (r: Session)
    requires InGrid(target)
    requires CanTick(s)
    ensures |r.snake.body| >= |s.snake.body| > 0
    ensures s.game.finished ==>
              && r.snake.body == s.snake.body
              && r.snake.direction == s.snake.direction
              && r.game.finished
    ensures !s.game.finished ==>
              && r.snake.body == Move(s.snake).body
              && Head(r.snake) == NextPosition(Head(s.snake), s.snake.direction)
    ensures r.game.score == s.game.score + (if Head(r.snake) == s.game.ball then 1 else 0)
    ensures Head(r.snake) == s.game.ball ==> r.game.ball == target && r.snake.growing
    ensures Head(r.snake) != s.game.ball ==>
              r.game.ball == s.game.ball && r.snake.growing == (s.game.finished && s.snake.growing)
    ensures r.game.finished <==> s.game.finished || !Distinct(r.snake.body)
    ensures r.snake.direction == s.snake.direction && r.snake.color == s.snake.color
    ensures r.colorSelected == s.colorSelected
    ensures s.colorSelected ==> r.colors == s.colors
    ensures !s.colorSelected ==> r.colors == DrawBoxes(s.colors)
  {
    var moved := if s.game.finished then s.snake else Move(s.snake);
    assert |moved.body| >= |s.snake.body| > 0;
    assert moved.direction == s.snake.direction && moved.color == s.snake.color;
    var head := Head(moved);
    var hit := SnakeHitBall(s.game, head.col, head.row);
    assert hit <==> head == s.game.ball;
    var game1 := if hit then RecordHit(s.game, target) else s.game;
    assert game1.score == s.game.score + (if hit then 1 else 0);
    var snake1 := if hit then Grow(moved) else moved;
    assert snake1.body == moved.body;
    var game2 := if HitItself(snake1) then Finish(game1) else game1;
    assert game2.score == game1.score && game2.ball == game1.ball;
    var colors := if !s.colorSelected then DrawBoxes(s.colors) else s.colors;
    Session(snake1, game2, colors, s.colorSelected)
  }

  lemma TickKeepsInv(s: Session, target: Pos)
    requires Inv(s) && InGrid(target)
    ensures CanTick(s) && Inv(Tick(s, target))
  {
    if !s.game.finished {
      MoveKeepsValid(s.snake);
    }
    DrawKeepsLayout(s.colors);
  }

  /** A direction key changes direction only when the guard allows it; the
      space key on a finished game starts over with a new snake and game
      and asks for a colour again, keeping the colour picker as it is. */
  function KeyDown(s: Session, k: Key): (r: Session)
    ensures s.game.finished && k.Space? ==>
              r == Session(NewSnake(), NewGame(), s.colors, false)
    ensures !(s.game.finished && k.Space?) ==>
              && r.game == s.game
              && r.colors == s.colors
              && r.colorSelected == s.colorSelected
              && r.snake.body == s.snake.body
              && r.snake.growing == s.snake.growing
              && r.snake.color == s.snake.color
              && r.snake.direction ==
                   (if k.Arrow? && k.d != Opposite(s.snake.direction) then k.d else s.snake.direction)
  {
    var snake := if k.Arrow? && CanChangeDirectionTo(s.snake, k.d) then SetDirection(s.snake, k.d) else s.snake;
    if s.game.finished && k.Space? then
      Session(NewSnake(), NewGame(), s.colors, false)
    else
      s.(snake := snake)
  }

  /** Until a colour is committed, any click (hit or miss) goes to the
      colour picker, copies its selection, possibly none, onto the snake,
      and commits; afterwards clicks are ignored. */
  function MouseDown(s: Session, px: int, py: int): (r: Session)
    ensures s.colorSelected ==> r == s
    ensures !s.colorSelected ==>
              && r.colorSelected
              && r.colors == HandleClick(s.colors, px, py)
              && r.snake.color == r.colors.selected
    ensures r.game == s.game
    ensures r.snake.body == s.snake.body && r.snake.direction == s.snake.direction
    ensures r.snake.growing == s.snake.growing
  {
    if !s.colorSelected then
      var colors := HandleClick(s.colors, px, py);
      Session(s.snake.(color := colors.selected), s.game, colors, true)
    else
      s
  }

  /** A click on the colour row while no colour is committed: a hit
      colours the snake with the hit box's colour; a miss still commits,
      leaving the snake with whatever was selected before (possibly none). */
  lemma MouseCommits(s: Session, px: int, py: int)
    requires !s.colorSelected && LaidOut(s.colors.boxes)
    ensures MouseDown(s, px, py).colorSelected
    ensures forall i :: 0 <= i < |s.colors.boxes| && ContainsPoint(s.colors.boxes[i], px, py) ==>
              MouseDown(s, px, py).snake.color == Some(COLORS[i])
    ensures NoHit(s.colors.boxes, px, py) ==>
              && MouseDown(s, px, py).snake.color == s.colors.selected
              && forall i :: 0 <= i < |s.colors.boxes| ==> !MouseDown(s, px, py).colors.boxes[i].highlighted
  {
    ClickOnLaidOut(s.colors, px, py);
  }

  predicate EventOk(e: Event) {
    e.TickEvent? ==> InGrid(e.target)
  }

  function Apply(s: Session, e: Event): (r: Session)
    requires Inv(s) && EventOk(e)
    ensures Inv(r)
  {
    match e
    case TickEvent(t) => TickKeepsInv(s, t); Tick(s, t)
    case KeyEvent(k) => KeyDown(s, k)
    case MouseEvent(x, y) => ClickOnLaidOut(s.colors, x, y); MouseDown(s, x, y)
  }

  /** Applies events in order; every reachable session keeps the
      invariant, so every frame update along the way can run. */
  function Run(s: Session, es: seq<Event>): (r: Session)
    requires Inv(s)
    requires forall i :: 0 <= i < |es| ==> EventOk(es[i])
    ensures Inv(r)
    decreases |es|
  {
    if |es| == 0 then s else Run(Apply(s, es[0]), es[1..])
  }

  /** The event is not the one restart: space on a finished game. */
  predicate StaysInGame(s: Session, e: Event) {
    !(s.game.finished && e == KeyEvent(Space))
  }

  /** One event that does not restart never lowers the score, never
      un-finishes the game and never shortens the body. */
  lemma ApplyWithinGame(s: Session, e: Event)
    requires Inv(s) && EventOk(e)
    requires StaysInGame(s, e)
    ensures Apply(s, e).game.score >= s.game.score
    ensures s.game.finished ==> Apply(s, e).game.finished
    ensures |Apply(s, e).snake.body| >= |s.snake.body|
  {
  }

  /** No event of the run restarts the game in the session it reaches. */
  predicate NoRestart(s: Session, es: seq<Event>)
    requires Inv(s)
    requires forall i :: 0 <= i < |es| ==> EventOk(es[i])
    decreases |es|
  {
    |es| > 0 ==> StaysInGame(s, es[0]) && NoRestart(Apply(s, es[0]), es[1..])
  }

  /** Within one game, whatever keys are pressed, the score never falls, a
      finished game stays finished, and the body never shortens. */
  lemma {:induction false} RunWithinGame(s: Session, es: seq<Event>)
    requires Inv(s)
    requires forall i :: 0 <= i < |es| ==> EventOk(es[i])
    requires NoRestart(s, es)
    ensures Run(s, es).game.score >= s.game.score
    ensures s.game.finished ==> Run(s, es).game.finished
    ensures |Run(s, es).snake.body| >= |s.snake.body|
    decreases |es|
  {
    if |es| > 0 {
      ApplyWithinGame(s, es[0]);
      RunWithinGame(Apply(s, es[0]), es[1..]);
    }
  }

  /** A space key pressed during play is not a restart: it leaves the run
      within the game. */
  lemma SpaceDuringPlayStaysInGame(s: Session)
    requires Inv(s) && !s.game.finished
    ensures NoRestart(s, [KeyEvent(Space)])
    ensures KeyDown(s, Space) == s
  {
  }

  /** The guard looks at the stored direction, not the last one moved in:
      two keys between frames reverse the snake, and the next frame runs
      it into its own neck and ends the game. */
  lemma DoubleKeyReversal(target: Pos)
    requires InGrid(target)
    ensures KeyDown(KeyDown(InitialSession(), Arrow(Left)), Arrow(Up)).snake.direction
            == Opposite(InitialSession().snake.direction)
    ensures Tick(KeyDown(KeyDown(InitialSession(), Arrow(Left)), Arrow(Up)), target).game.finished
  {
    var s := KeyDown(KeyDown(InitialSession(), Arrow(Left)), Arrow(Up));
    assert s.snake.body == INITIAL_BODY;
    var r := Tick(s, target);
    assert r.snake.body[1] == r.snake.body[3];
  }
}

=== FILE: snake.dfy ===
/** The snake: a body of grid cells (tail first, head last), the direction
    it travels in, a pending-growth flag and a display colour. */
module SnakeBody {
  import opened Options
  import opened Grid
  import opened Dedup
  import opened ColorChooser

  datatype Snake = Snake(body: seq<Pos>, direction: Direction, growing: bool, color: Option<Color>)

  const INITIAL_BODY: seq<Pos> := [Pos(2, 10), Pos(2, 11), Pos(2, 12), Pos(2, 13)]

  /** Consecutive cells of the body are torus neighbours. */
  predicate Connected(body: seq<Pos>) {
    forall i :: 0 <= i < |body| - 1 ==> Adjacent(body[i], body[i + 1])
  }

  /** What every snake reachable in play satisfies: at least the four
      initial cells, all inside the grid, each next to the one before. */
  predicate Valid(s: Snake) {
    && |s.body| >= 4
    && (forall i :: 0 <= i < |s.body| ==> InGrid(s.body[i]))
    && Connected(s.body)
  }

  function NewSnake(): (s: Snake)
    ensures Valid(s) && Distinct(s.body)
    ensures |s.body| == 4 && s.body[0] == Pos(2, 10) && Head(s) == Pos(2, 13)
    ensures s.direction == Down && !s.growing && s.color == Some(Olive)
  {
    Snake(INITIAL_BODY, Down, false, Some(Olive))
  }

  /** The head is the last cell of the body (see `HeadEndsBody`). */
  function Head(s: Snake): (h: Pos)
    requires |s.body| > 0
    ensures h in s.body
  {
    s.body[|s.body| - 1]
  }

  /** The body is the cells behind the head followed by the head. */
  lemma HeadEndsBody(s: Snake)
    requires |s.body| > 0
    ensures s.body == s.body[..|s.body| - 1] + [Head(s)]
  {
  }

  /** Asks for one extra cell on the next move. */
  function Grow(s: Snake): (r: Snake)
    ensures r.growing
    ensures r.body == s.body && r.direction == s.direction && r.color == s.color
  {
    s.(growing := true)
  }

  /** The body is still non-empty once the tail has (or has not) been
      dropped, so the head can be read after the drop. */
  predicate CanMove(s: Snake) {
    |s.body| >= 2 || (s.growing && |s.body| >= 1)
  }

  /** One step: drop the tail unless growth is pending, then append the
      cell after the head of what is left, and clear the growth flag. */
  function Move(s: Snake): (r: Snake)
    requires CanMove(s)
    ensures !r.growing && r.direction == s.direction && r.color == s.color
    ensures |r.body| == |s.body| + (if s.growing then 1 else 0)
    ensures r.body[..|r.body| - 1] == (if s.growing then s.body else s.body[1..])
    ensures Head(r) == NextPosition(Head(s), s.direction)
  {
    var kept := if s.growing then s.body else s.body[1..];
    s.(body := kept + [NextPosition(kept[|kept| - 1], s.direction)], growing := false)
  }

  /** A move without pending growth slides the body: the same length, the
      old tail gone, one new head. */
  lemma NormalMove(s: Snake)
    requires |s.body| >= 2 && !s.growing
    ensures |Move(s).body| == |s.body|
    ensures Move(s).body == s.body[1..] + [NextPosition(Head(s), s.direction)]
  {
    var r := Move(s);
    assert r.body == r.body[..|r.body| - 1] + [Head(r)];
  }

  /** After grow, the next move keeps every old cell and adds one head;
      the flag is cleared. */
  lemma GrowThenMove(s: Snake)
    requires |s.body| >= 1
    ensures |Move(Grow(s)).body| == |s.body| + 1
    ensures Move(Grow(s)).body == s.body + [NextPosition(Head(s), s.direction)]
    ensures !Move(Grow(s)).growing
  {
    var r := Move(Grow(s));
    assert r.body == r.body[..|r.body| - 1] + [Head(r)];
  }

  /** Growth requests do not stack. */
  lemma GrowIdempotent(s: Snake)
    ensures Grow(Grow(s)) == Grow(s)
  {
  }

  /** Moving keeps a valid snake valid and never shortens it. */
  lemma MoveKeepsValid(s: Snake)
    requires Valid(s)
    ensures CanMove(s)
    ensures Valid(Move(s))
    ensures |Move(s).body| >= |s.body|
  {
    var r := Move(s);
    var n := |r.body|;
    var kept := r.body[..n - 1];
    assert kept == (if s.growing then s.body else s.body[1..]);
    assert r.body == kept + [Head(r)];
    assert InGrid(Head(s));
    assert TorusStep(Head(s), Head(r), s.direction);
    forall i | 0 <= i < n
      ensures InGrid(r.body[i])
    {
      if i < n - 1 {
        assert r.body[i] == kept[i];
        assert kept[i] == s.body[if s.growing then i else i + 1];
      }
    }
    forall i | 0 <= i < n - 1
      ensures Adjacent(r.body[i], r.body[i + 1])
    {
      if i < n - 2 {
        var k := if s.growing then i else i + 1;
        assert r.body[i] == s.body[k] && r.body[i + 1] == s.body[k + 1];
      } else {
        assert r.body[i] == Head(s);
      }
    }
  }

  /** The guard on a direction change: anything but the exact reverse of
      the current direction is allowed. */
  function CanChangeDirectionTo(s: Snake, d: Direction): (r: bool)
    ensures r <==> d != Opposite(s.direction)
  {
    match s.direction
    case Up => d != Down
    case Down => d != Up
    case Left => d != Right
    case Right => d != Left
  }

  /** The unguarded direction setter; callers check the guard first. */
  function SetDirection(s: Snake, d: Direction): (r: Snake)
    ensures r.direction == d
    ensures r.body == s.body && r.growing == s.growing && r.color == s.color
  {
    s.(direction := d)
  }

  /** Self-collision: removing duplicate cells shortens the body. */
  function HitItself(s: Snake): (r: bool)
    ensures r <==> !Distinct(s.body)
  {
    UniqLengthIffDistinct(s.body);
    |Uniq(s.body)| != |s.body|
  }

  lemma InitialMove()
    ensures Move(NewSnake()).body == [Pos(2, 11), Pos(2, 12), Pos(2, 13), Pos(2, 14)]
  {
  }

  lemma InitialGrowMove()
    ensures Move(Grow(NewSnake())).body == [Pos(2, 10), Pos(2, 11), Pos(2, 12), Pos(2, 13), Pos(2, 14)]
  {
  }

  lemma InitialNoCollision()
    ensures !HitItself(NewSnake())
  {
  }

  lemma RepeatedCellCollides(d: Direction, g: bool, c: Option<Color>)
    ensures HitItself(Snake([Pos(5, 5), Pos(5, 6), Pos(5, 5)], d, g, c))
  {
    var b := [Pos(5, 5), Pos(5, 6), Pos(5, 5)];
    assert b[0] == b[2];
  }

  lemma GuardFromUp(s: Snake)
    requires s.direction == Up
    ensures !CanChangeDirectionTo(s, Down)
    ensures CanChangeDirectionTo(s, Left) && CanChangeDirectionTo(s, Right) && CanChangeDirectionTo(s, Up)
  {
  }
}
